=== FILE: README.md ===
# Retro board backend: edit locks and sort keys

A model, in Dafny, of the two pieces of logic inside the retro board's
Express server (`index.js`):

- the **edit-lock protocol** of a task row: the editability gate, lock,
  unlock, the transfer request, its cancellation, the timed claim (5000 ms
  cooldown), and the holder's deny and allow;
- the **sort-key allocator** of the move handler: a moved task gets the
  integer midpoint between its new predecessor's key and the next key above
  it; when no integer is left, every row is re-keyed `1000, 2000, ...` in key
  order and the midpoint is taken once more. The key `id * 1000` given at
  creation and the per-caller flags of the task list belong here too.

A row is the datatype `Tasks.Task`. The table is a sequence of rows in scan
order. The wall clock and the caller's token are parameters. Each handler is
a pure function from the row or table it read to either the row or table it
writes or the error it answers with:

| error | status |
|---|---|
| `NotFound` | 404 |
| `Conflict(message)` | 400 |
| `Invalid(message)` | 400 for an empty text |
| `Internal(message)` | 500 |

A failed handler writes nothing.

Files:

- `results.dfy`: `Option`, `Result` and `Err`.
- `tasks.dfy`: the row, the constants and messages, lookup by id, the list flags.
- `locks.dfy`: the row-level handlers, the `Step`/`Apply`/`Next` transition, and one-step protocol lemmas.
- `traces.dfy`: invariants over arbitrary request sequences against one row.
- `keyorder.dfy`: `ORDER BY sort` as a stable insertion sort.
- `allocator.dfy`: the move handler's `run` and `alignSort`.
- `board.dfy`: the handlers over the whole table, and the table invariant `WellKeyed`, which every handler keeps.
- `listing.dfy`: the rows and flags `GET /tasks` returns.
- `aswritten.dfy`: the two handlers modelled as written, with the readings below applied.
- `scenarios.dfy`: concrete runs, and two edge cases of the lock protocol.

Behaviour a reader might not expect, which the model follows as written:

- A claim succeeds only when strictly more than 5000 ms have passed since the
  request (`now > requested_at + 5000`, index.js:311). At exactly 5000 ms it
  is told to wait: `Scenarios.ClaimAtCooldownWaits`.
- Unlock clears only the holder and leaves a pending transfer request in
  place (index.js:248). The requester can then claim the unlocked row:
  `Locks.ReleaseKeepsRequest`.
- Deny, cancel, claim and allow clear the requester by writing the empty
  string (index.js:293, 313, 334, 347). A caller whose token header is sent
  empty then matches that requester at the claim's check (index.js:309).
  Once 5000 ms after time 0 have passed, it takes the lock as the empty
  token, which leaves the row unlocked whoever held it:
  `Scenarios.EmptyTokenClaimUnlocks`.
- The allocator's lookups and the realignment read the whole table,
  tombstones included (index.js:183, 193, 195). The model does the same.

Three readings:

- `const [[task]] = await db.query(...)` is read as `rows[0]` (index.js:265, 287, 305).
- `""` in the SQL text is read as the empty string (index.js:293, 313, 334, 347).
- SQL NULL in the token columns is folded into the empty token (see "## Left out").

## Model

| member | source | states |
|---|---|---|
| Tasks.NewTask | index.js:108-115 | a created row has the given id, text and column, the key `id * 1000`, no holder, no request, and is active |
| Tasks.Find | index.js:37 | the lookup by id finds a row with that id, the first one, and finds none exactly when no row has that id |
| Tasks.FlagsFor | index.js:73-76 | `edit_permission` iff the caller holds the row; `locked` iff someone else holds it; `locking_requested` iff the caller is the pending requester; the fourth flag iff the caller holds the row and a request is pending |
| Tasks.Strip | index.js:72 | the listed row has both tokens removed and every other field kept, `updated_at` included |
| Locks.Gate | index.js:36-45 | passes iff the row is active and unlocked or held by the caller; NotFound iff the row is deleted; otherwise the "edited by someone else" Conflict |
| Locks.Acquire | index.js:223-233 | succeeds iff the gate passes; the caller becomes holder at `now`; the pending request and the content are untouched; a failure answers the gate's error |
| Locks.Release | index.js:243-258 | changes the row only if it is active and the caller holds it, then clears the holder and keeps the pending request; never fails |
| Locks.RequestTransfer | index.js:263-283 | NotFound on a deleted row; "not locked" if nobody or the caller holds it; "already asked" if the caller is pending; otherwise the caller becomes the pending requester at `now`, replacing any other, and the holder is untouched |
| Locks.CancelTransfer | index.js:285-301 | fails only on a deleted row; clears the request only for the recorded requester and leaves the row as it was for anyone else |
| Locks.ClaimTransfer | index.js:303-328 | succeeds iff the row is active, the caller is the pending requester and `now > requested_at + 5000`; the caller then holds the row and the request is cleared; the other two cases answer "wait" and "someone else asked" |
| Locks.DenyTransfer | index.js:330-341 | succeeds iff the gate passes; clears the request and keeps the holder |
| Locks.AllowTransfer | index.js:343-354 | succeeds iff the gate passes; the row's own pending requester becomes holder at `now` and the request is cleared |
| Locks.EditText | index.js:132-151 | an empty text is refused before the gate; otherwise succeeds iff the gate passes, answers the gate's error when it refuses, and replaces the text with locks, key, column and lifecycle untouched |
| Locks.SoftDelete | index.js:156-171 | succeeds iff the gate passes, answers the gate's error when it refuses, and stamps `deleted_at` and `updated_at` with `now`, keeping id, key, text, column, creation time and locks |
| Locks.NextKeepsKey | index.js:223-354 | no row-level request changes a row's id or key |
| Locks.ChangeCarriesWatermark | index.js:223-354 | every row-level request that changes a row stamps `updated_at` with its time |
| Locks.OnlyClaimTakesHeldLock | index.js:303-322 | another caller can take a held lock only through a claim of its own pending request after the cooldown |
| Locks.NonHolderEditConflicts | index.js:41-43 | lock, deny, allow, delete and a non-empty update by a non-holder are refused with the gate's Conflict |
| Locks.HolderChange | index.js:223-354 | after any request the holder is the old holder, nobody, the caller of a successful lock, or the old pending requester |
| Locks.PendingChange | index.js:263-354 | after any request the pending request is unchanged, cleared, or the caller of a successful transfer request at its time |
| Locks.LockIdempotent | index.js:223-233 | a holder re-locking succeeds and stays holder |
| Locks.RequestReplacesOther | index.js:272-276 | a new transfer request replaces another token's request, whose claim is then refused |
| Locks.ReleaseKeepsRequest | index.js:246-248 | after the holder unlocks, the pending requester can still claim the row once the cooldown has passed |
| Locks.DenyThenClaimFails | index.js:330-334 | after a deny the holder keeps the row and any requester's claim is refused |
| Locks.AllowGrantsRequester | index.js:343-347 | an allow hands the row to the pending requester at once, and the old holder can no longer edit |
| Locks.FlagsAgreeWithGate | index.js:73 | on an active row the `locked` flag is set exactly when the gate refuses the caller |
| Traces.Trace | index.js:223-354 | the states of a request sequence: each one is the previous one after one request |
| Traces.WitnessedStep | index.js:223-354 | one request keeps the trace invariant: the pending request and the holder each go back to an earlier successful request by that token |
| Traces.AlwaysWitnessed | index.js:223-354 | from a fresh row the trace invariant holds after every prefix of requests |
| Traces.HoldersAsked | index.js:223-322 | whoever holds a row earlier locked it or asked for a transfer, successfully |
| Traces.ClaimRespectsCooldown | index.js:303-322 | a successful claim follows an earlier successful transfer request by the same token, made more than 5000 ms before |
| KeyOrder.SortByKey | index.js:183 | `ORDER BY sort` returns the same rows in ascending key order |
| KeyOrder.SortKeepsIdsUnique | index.js:183 | sorting keeps the ids unique |
| Allocator.CeilDiv | index.js:196 | `Math.ceil(n / d)` is the least `q` with `n <= q * d` |
| Allocator.Ceiling | index.js:196 | the synthetic upper bound is a multiple of 1000 above the lower bound by at most 1000 |
| Allocator.CeilingOfMultiple | index.js:196 | on a multiple of 1000 the synthetic bound is the next multiple |
| Allocator.MidpointBetween | index.js:197-198 | the floor midpoint is degenerate iff the bounds are at most 1 apart, and otherwise lies strictly between them |
| Allocator.LowerBound | index.js:193-194 | the predecessor's key when a row has that id, else 0 |
| Allocator.Successor | index.js:195 | the least key above the lower bound among rows other than the moved one, or none when there is no such row |
| Allocator.UpperBound | index.js:195-196 | above the lower bound, with no other row's key strictly between the two; when some other row is keyed above the lower bound, it is that row's key, the least such |
| Allocator.TryPlace | index.js:193-198 | no room iff the bounds are at most 1 apart; otherwise a key strictly between them that no other row has, with every other key at most the lower bound or above it |
| Allocator.Rekey | index.js:185-186 | a row gets its new key, and is stamped with `now` exactly when its key changed; an unchanged row is left as it was |
| Allocator.Renumber | index.js:184-188 | the i-th row is re-keyed `(first + i) * 1000` |
| Allocator.Realign | index.js:182-189 | every row in key order, re-keyed `(i + 1) * 1000` |
| Allocator.RealignHeadroom | index.js:184-187 | after realignment any two keys are at least 1000 apart and all are at least 1000 |
| Allocator.RealignKeepsRows | index.js:183-187 | realignment keeps every row, re-keyed |
| Allocator.RealignAddsNoRows | index.js:183-187 | realignment adds no row |
| Allocator.RealignKeepsIdsUnique | index.js:183-187 | realignment keeps ids unique |
| Allocator.RealignKeepsOrder | index.js:183-187 | a row keyed below another is still keyed below it after realignment |
| Allocator.AlignedHasRoom | index.js:193-198 | on a table keyed `1000, 2000, ...` every attempt finds room |
| Allocator.RealignedHasRoom | index.js:199-204 | after realignment the retry always finds room, so "Unable to sort after align" cannot happen |
| Allocator.Place | index.js:191-210 | always succeeds; realigns iff the first attempt finds no room; the key is strictly between the bounds of the table it was computed on and collides with no other row |
| Board.Create | index.js:98-127 | an empty text is refused; otherwise exactly one row is appended, with the issued id, the text, the column, the key `id * 1000`, no holder, no request, and creation and update time `now` |
| Board.Perform | index.js:223-354 | a row-level handler writes the row-level transition's result into the row with its id, or answers the transition's error; it changes no other row and never an id or key; a missing row is NotFound except for unlock, which writes nothing, and an empty update, which is refused first |
| Board.SetKey | index.js:206 | the moved row gets the new key, column and `now` and keeps its text, creation time and `deleted_at`; every other row is unchanged |
| Board.Move | index.js:176-218 | succeeds iff the row exists and the gate passes; a missing row is NotFound, and a found row the gate refuses answers the gate's own error |
| Board.CreateKeepsWellKeyed | index.js:108-115 | creating with a freshly issued id keeps ids unique and keys distinct, and the new key is above every existing key |
| Board.PerformKeepsWellKeyed | index.js:223-354 | row-level handlers keep ids unique and keys distinct |
| Board.RealignKeepsWellKeyed | index.js:182-189 | realignment keeps ids unique, keys distinct and below `(top + 1) * 1000` |
| Board.SetKeyKeepsWellKeyed | index.js:206 | writing an allocated key keeps keys distinct and in range |
| Board.MoveKeepsWellKeyed | index.js:176-210 | the move handler keeps ids unique and keys distinct and in range |
| Board.SetKeyLandsAfter | index.js:195-206 | a key allocated behind a predecessor puts the row right after it |
| Board.MoveLandsAfterPredecessor | index.js:191-210 | a move behind an existing predecessor puts the row right after it, with no other key in between |
| Board.SetKeyToFront | index.js:194-206 | a key allocated with lower bound 0 is below every other positive key |
| Board.MoveToFront | index.js:191-210 | a move without a predecessor puts the row before every other row |
| Listing.Visible | index.js:63 | the listing selects exactly the active rows updated after the watermark |
| Listing.VisibleCounts | index.js:63 | each selected row appears as often as the table holds it, and no other row appears |
| Listing.SessionToken | index.js:59 | the listing answers for the caller's header token, or for a newly generated one when the header is empty; the token is never empty |
| Listing.FreeRowFlagsNothing | index.js:73-76 | a row nobody holds or asked for carries no flag for a caller with a real token |
| Listing.List | index.js:63-77 | one entry per selected row, in ascending key order, with both tokens stripped |
| Listing.ListIsComplete | index.js:63-77 | every active row updated after the watermark is listed, stripped and flagged for the caller |
| Listing.ListIsSound | index.js:63-77 | every entry comes from an active row updated after the watermark, and is `locked` exactly when the gate refuses the caller |
| Listing.TombstonesNotListed | index.js:63 | no deleted row is listed |
| AsWritten.AllowAsWritten | index.js:343-354 | as written, a successful allow leaves the row unlocked with no request |
| AsWritten.AllowAsWrittenDropsRequester | index.js:347 | as written the requester does not get the row; corrected, it does |
| AsWritten.AlignAsWritten | index.js:182-189 | as written, realignment succeeds only on an empty table |
| AsWritten.PlaceAsWritten | index.js:191-210 | as written, a placement equals the corrected one when the first attempt finds room, and fails with a TypeError otherwise |
| AsWritten.CrowdedHasNoRoom | index.js:193-198 | behind the row keyed 1000, with 1001 next, there is no room |
| AsWritten.CrowdedRealigned | index.js:182-189 | realigning rows keyed 1000, 1001, 3000 keys them 1000, 2000, 3000 |
| AsWritten.CrowdedMoveCounterexample | index.js:185 | the crowded move fails as written and lands at 1500 after realignment in the corrected model |
| Scenarios.ScenarioPlacement | index.js:115 | two created rows keyed 1000 and 2000; moving the second behind the first gives 1500 |
| Scenarios.ScenarioTransfer | index.js:303-322 | lock, a refused second lock, request, early claim told to wait, claim after the cooldown |
| Scenarios.ScenarioDenial | index.js:330-334 | after a deny the holder keeps the row and the requester's claim is refused |
| Scenarios.ClaimAtCooldownWaits | index.js:311 | a claim exactly 5000 ms after the request waits; 1 ms later it succeeds |
| Scenarios.EmptyTokenClaimUnlocks | index.js:309-315 | after a deny clears the requester to the empty string, a claim with an empty token passes the requester check and leaves the row unlocked |

## Left out

- HTTP routing, body parsing, CORS headers and `server.listen` (index.js:1-25, 356): plumbing with no logic.
- The PostgreSQL pool and SQL text. The table is a sequence of rows. Interleavings of concurrent requests, whose read and write are separate queries, are not modelled.
- The WebSocket server and the `wssSendDt` broadcast (index.js:12-16, 47-52): a transport side effect with no effect on the rows.
- Token generation with `uniqid` and the clock: tokens are strings, a generated token is a non-empty parameter, and `now` is a parameter.
- A request with no token header at all is not modelled. Its token is `undefined`, which equals no stored column value (index.js:246, 272, 291, 309). For example, a header-less transfer request on a held row succeeds in the server; in the model every token is a string, and the empty string stands for a header sent empty.
- NULL token columns are folded into the empty token. This is a modelling assumption, not the server's behaviour. A created row's `locked_by` and `locking_switch_requested_by` are left to the schema's defaults by the insert (index.js:108), and the schema is not part of this model. Only the clearing writes store the empty string (index.js:248, 293, 313, 334, 347).
- The tombstone query of `GET /tasks` (index.js:79-87): its result arrives after the response has been sent, so it never reaches the caller. The returned watermark and token are parameters.
- Board.Create: the two writes of the create handler (insert, then set the key) are one step, and the database's failure to return an id (index.js:119-121) is not modelled.
- Board.Create: the id sequence is a parameter. `CreateKeepsWellKeyed` requires the new id to exceed every id issued so far, which is what a PostgreSQL sequence promises.
- Allocator.Place: the realignment writes are not transactional, but the retry after realignment always finds room (`Allocator.RealignedHasRoom`), so the failure that would have left them half-done cannot happen.
- Integer widths: ids, keys and times are unbounded integers. The model assumes that times and keys are read back as JavaScript numbers within their columns' ranges. It does not model the following:
  - Millisecond times need 64-bit columns, and the PostgreSQL driver returns 64-bit integers as strings. That would turn `locking_switch_requested_at + 5000` (index.js:311) into string concatenation.
  - A 32-bit `sort` column overflows at `id * 1000` (index.js:115) for ids above 2,147,483.
- The response bodies of the handlers: only the error or the row written is modelled.
- Board.Move: the source's gate (index.js:178) runs outside its `try`, so a refused move is an unhandled promise rejection. The request never gets an answer, and with no `unhandledRejection` handler a current Node.js ends the server process. The model instead answers NotFound or the gate's Conflict and writes nothing. It does not model the missing answer or the ended process.
- Board.Create, Board.Move: `req.body.col` is optional, and a request without it writes NULL into `col` (index.js:109, 206). In the model the column is always an integer. The column takes no part in ordering or locking.

## Findings

| source | as written | input that shows it | evidently intended | confidence | as-written member | corrected member |
|---|---|---|---|---|---|---|
| index.js:347 | `allow_unlock` writes `dt.locking_switch_requested_by` into `locked_by`; `dt` is a number, so the value is undefined and the row ends up unlocked, with the request cleared (reading `""` as the empty string) | a row held by T1 with T2 pending; T1 allows | `locked_by` becomes the row's own `locking_switch_requested_by` | not executed | AsWritten.AllowAsWrittenDropsRequester | Locks.AllowTransfer |
| index.js:185 | `alignSort` reads `tasks[i].sort` on the query result rather than `tasks.rows[i].sort`; `tasks[0]` is undefined and the read throws, so every move that needs realignment answers 500 | rows keyed 1000, 1001, 3000; move row 3 behind row 1 | the keys are compared row by row and the table is realigned, putting row 3 at 1500 | not executed | AsWritten.CrowdedMoveCounterexample | Allocator.Place |

=== FILE: allocator.dfy ===
/** The sort-key allocator of `PATCH /tasks/:id/move`.

    A moved row gets the integer midpoint between its new predecessor's key
    and the next key above it. When no integer is left between the two, every
    row of the table is re-keyed to `1000, 2000, ...` in key order and the
    midpoint is computed once more; a second failure is an internal error.
    All lookups here read the whole table, tombstones included.
 */
module Allocator {
  import opened Results
  import opened Tasks
  import opened KeyOrder

  /** `Math.ceil(n / d)` for a positive `d`; Dafny's `/` floors when the
      divisor is positive. */
  function CeilDiv(n: int, d: int): (q: int)
    requires d > 0
    ensures (q - 1) * d < n <= q * d
  {
    var f := (-n) / d;
    assert -n == f * d + (-n) % d;
    -f
  }

  /** The upper bound used when no row follows the predecessor: the next
      multiple of 1000 at or above `low + 1`. */
  function Ceiling(low: int): (c: int)
    ensures low < c <= low + Spacing
    ensures c % Spacing == 0
  {
    var q := CeilDiv(low + 1, Spacing);
    assert (q * Spacing) % Spacing == 0;
    q * Spacing
  }

  /** On a multiple of 1000 the ceiling is exactly the next multiple. */
  lemma CeilingOfMultiple(m: int)
    ensures Ceiling(m * Spacing) == (m + 1) * Spacing
  {
    var c := Ceiling(m * Spacing);
    var q := c / Spacing;
    assert c == q * Spacing;
  }

  /** `Math.floor((low + high) / 2)`. */
  function Midpoint(low: int, high: int): int {
    (low + high) / 2
  }

  /** No integer is left strictly between the two bounds. */
  predicate Degenerate(low: int, high: int) {
    Midpoint(low, high) == low || Midpoint(low, high) == high
  }

  /** The midpoint of two ordered bounds is degenerate exactly when they are
      at most one apart; otherwise it lies strictly between them. */
  lemma MidpointBetween(low: int, high: int)
    requires low < high
    ensures Degenerate(low, high) <==> high - low <= 1
    ensures !Degenerate(low, high) ==> low < Midpoint(low, high) < high
  {
  }

  /** The key of the predecessor row named by `beforeId`, or 0 when no id is
      given or no row has it. */
  function LowerBound(rows: Table, beforeId: Option<int>): (low: int)
    ensures low == 0 || exists i :: 0 <= i < |rows| && Some(rows[i].id) == beforeId && rows[i].sort == low
    ensures (forall i :: 0 <= i < |rows| ==> Some(rows[i].id) != beforeId) ==> low == 0
    ensures UniqueIds(rows) ==> forall i :: 0 <= i < |rows| && Some(rows[i].id) == beforeId ==> low == rows[i].sort
  {
    match beforeId
    case None => 0
    case Some(b) =>
      match Find(rows, b)
      case None => 0
      case Some(i) => rows[i].sort
  }

  /** A row that can be the moved row's successor: not the moved row
      itself, and keyed above the lower bound. */
  predicate Follows(t: Task, low: int, moving: int) {
    t.id != moving && t.sort > low
  }

  /** The smallest key above `low` among rows other than `moving`. */
  function Successor(rows: Table, low: int, moving: int): (r: Option<int>)
    ensures r.None? <==> forall i :: 0 <= i < |rows| ==> !Follows(rows[i], low, moving)
    ensures r.Some? ==> exists i :: 0 <= i < |rows| && Follows(rows[i], low, moving) && rows[i].sort == r.value
    ensures r.Some? ==> forall i :: 0 <= i < |rows| && Follows(rows[i], low, moving) ==> r.value <= rows[i].sort
    decreases |rows|
  {
    if |rows| == 0 then None
    else
      var rest := Successor(rows[1..], low, moving);
      assert forall i :: 1 <= i < |rows| ==> rows[i] == rows[1..][i - 1];
      if !Follows(rows[0], low, moving) then rest
      else match rest
        case None => Some(rows[0].sort)
        case Some(k) => Some(if k < rows[0].sort then k else rows[0].sort)
  }

  /** The upper bound: the successor's key, or the synthetic ceiling. It is
      above `low`, and no other row's key lies strictly between the two. */
  function UpperBound(rows: Table, low: int, moving: int): (high: int)
    ensures high > low
    ensures forall i :: 0 <= i < |rows| && rows[i].id != moving ==> rows[i].sort <= low || high <= rows[i].sort
    ensures high == Ceiling(low) || exists i :: 0 <= i < |rows| && Follows(rows[i], low, moving) && rows[i].sort == high
    ensures (exists i :: 0 <= i < |rows| && Follows(rows[i], low, moving)) ==>
      exists i :: 0 <= i < |rows| && Follows(rows[i], low, moving) && rows[i].sort == high
  {
    match Successor(rows, low, moving)
    case Some(k) => k
    case None => Ceiling(low)
  }

  /** One allocation attempt: the midpoint between the predecessor's key and
      the next key above it, or None when no integer is left between them.
      A key it returns collides with no other row and places the moved row
      right after its predecessor: every other key is at most the lower
      bound or above the new key. */
  function TryPlace(rows: Table, moving: int, beforeId: Option<int>): (r: Option<int>)
    ensures var low := LowerBound(rows, beforeId);
      r.None? <==> UpperBound(rows, low, moving) - low <= 1
    ensures r.Some? ==> LowerBound(rows, beforeId) < r.value < UpperBound(rows, LowerBound(rows, beforeId), moving)
    ensures r.Some? ==> forall i :: 0 <= i < |rows| && rows[i].id != moving ==>
      rows[i].sort <= LowerBound(rows, beforeId) || rows[i].sort > r.value
    ensures r.Some? ==> forall i :: 0 <= i < |rows| && rows[i].id != moving ==> rows[i].sort != r.value
  {
    var low := LowerBound(rows, beforeId);
    var high := UpperBound(rows, low, moving);
    MidpointBetween(low, high);
    if Degenerate(low, high) then None else Some(Midpoint(low, high))
  }

  /** A realigned row: the key set to `key`, and stamped with `now` only
      when the key actually changed. */
  function Rekey(t: Task, key: int, now: int): (u: Task)
    ensures u.sort == key
    ensures t.sort == key ==> u == t
    ensures t.sort != key ==> u.updatedAt == now
    ensures u.id == t.id && u.text == t.text && u.col == t.col && u.deletedAt == t.deletedAt
    ensures u.createdAt == t.createdAt
    ensures SameHolder(u, t) && SamePending(u, t)
  {
    if t.sort == key then t else t.(sort := key, updatedAt := now)
  }

  /** Re-key a sequence of rows to consecutive multiples of 1000, the
      first one to `first * 1000`. */
  function Renumber(s: seq<Task>, first: int, now: int): (r: seq<Task>)
    ensures |r| == |s|
    ensures forall i :: 0 <= i < |r| ==> r[i] == Rekey(s[i], (first + i) * Spacing, now)
    decreases |s|
  {
    if |s| == 0 then []
    else [Rekey(s[0], first * Spacing, now)] + Renumber(s[1..], first + 1, now)
  }

  /** `alignSort`: every row, tombstones included, in ascending key order,
      re-keyed to `(i + 1) * 1000`. */
  function Realign(rows: Table, now: int): (r: Table)
    ensures |r| == |rows|
    ensures forall i :: 0 <= i < |r| ==> r[i].sort == (i + 1) * Spacing
    ensures forall i :: 0 <= i < |r| ==> r[i] == Rekey(SortByKey(rows)[i], (i + 1) * Spacing, now)
  {
    Renumber(SortByKey(rows), 1, now)
  }

  /** After realignment neighbouring keys are exactly 1000 apart, so the
      keys are pairwise distinct and every gap has room for a midpoint. */
  lemma RealignHeadroom(rows: Table, now: int, i: int, j: int)
    requires 0 <= i < j < |rows|
    ensures Realign(rows, now)[j].sort - Realign(rows, now)[i].sort >= Spacing
    ensures Realign(rows, now)[i].sort >= Spacing
  {
  }

  /** Realignment keeps every row, with its content and lock fields. */
  lemma {:induction false} RealignKeepsRows(rows: Table, now: int, p: int)
    requires 0 <= p < |rows|
    ensures exists i :: 0 <= i < |rows| && Realign(rows, now)[i] == Rekey(rows[p], (i + 1) * Spacing, now)
  {
    var s := SortByKey(rows);
    assert rows[p] in multiset(s);
    var i :| 0 <= i < |s| && s[i] == rows[p];
    assert Realign(rows, now)[i] == Rekey(rows[p], (i + 1) * Spacing, now);
  }

  /** Realignment adds no row: each comes from a row of the table. */
  lemma {:induction false} RealignAddsNoRows(rows: Table, now: int, i: int)
    requires 0 <= i < |rows|
    ensures exists p :: 0 <= p < |rows| && Realign(rows, now)[i] == Rekey(rows[p], (i + 1) * Spacing, now)
  {
    var s := SortByKey(rows);
    assert s[i] in multiset(rows);
    var p :| 0 <= p < |rows| && rows[p] == s[i];
    assert Realign(rows, now)[i] == Rekey(rows[p], (i + 1) * Spacing, now);
  }

  /** Realignment keeps the ids unique. */
  lemma {:induction false} RealignKeepsIdsUnique(rows: Table, now: int)
    requires UniqueIds(rows)
    ensures UniqueIds(Realign(rows, now))
  {
    SortKeepsIdsUnique(rows);
    var s, r := SortByKey(rows), Realign(rows, now);
    assert forall i :: 0 <= i < |r| ==> r[i].id == s[i].id;
  }

  /** In a key-sorted sequence a smaller key comes first. */
  lemma SmallerKeyFirst(s: seq<Task>, i: int, j: int)
    requires SortedByKey(s)
    requires 0 <= i < |s| && 0 <= j < |s| && s[i].sort < s[j].sort
    ensures i < j
  {
  }

  /** Realignment keeps the relative order: a row keyed below another one
      is still keyed below it afterwards. */
  lemma {:induction false} RealignKeepsOrder(rows: Table, now: int, p: int, q: int)
    requires 0 <= p < |rows| && 0 <= q < |rows|
    requires rows[p].sort < rows[q].sort
    ensures exists i, j ::
      (&& 0 <= i < j < |rows|
       && Realign(rows, now)[i].id == rows[p].id
       && Realign(rows, now)[j].id == rows[q].id
       && Realign(rows, now)[i].sort < Realign(rows, now)[j].sort)
  {
    var s := SortByKey(rows);
    assert rows[p] in multiset(s) && rows[q] in multiset(s);
    var i :| 0 <= i < |s| && s[i] == rows[p];
    var j :| 0 <= j < |s| && s[j] == rows[q];
    SmallerKeyFirst(s, i, j);
    var r := Realign(rows, now);
    assert r[i] == Rekey(s[i], (i + 1) * Spacing, now);
    assert r[j] == Rekey(s[j], (j + 1) * Spacing, now);
  }

  /** Keys exactly `1000, 2000, ...` in table order, as realignment leaves them. */
  predicate Aligned(r: Table) {
    forall i :: 0 <= i < |r| ==> r[i].sort == (i + 1) * Spacing
  }

  /** On an aligned table an attempt always finds room: the lower bound is
      0 or a multiple of 1000, and so is the upper bound, 1000 or more above. */
  lemma {:induction false} AlignedHasRoom(r: Table, moving: int, beforeId: Option<int>)
    requires Aligned(r)
    ensures TryPlace(r, moving, beforeId).Some?
  {
    var low := LowerBound(r, beforeId);
    var m: int;
    if low == 0 {
      m := 0;
    } else {
      var i :| 0 <= i < |r| && Some(r[i].id) == beforeId && r[i].sort == low;
      m := i + 1;
    }
    assert low == m * Spacing;
    var high := UpperBound(r, low, moving);
    if high == Ceiling(low) {
      CeilingOfMultiple(m);
    } else {
      var j :| 0 <= j < |r| && Follows(r[j], low, moving) && r[j].sort == high;
      assert (j + 1) * Spacing > m * Spacing;
      assert j + 1 > m;
    }
    assert high - low >= Spacing;
  }

  /** On a realigned table an attempt always finds room. */
  lemma RealignedHasRoom(rows: Table, now: int, moving: int, beforeId: Option<int>)
    ensures TryPlace(Realign(rows, now), moving, beforeId).Some?
  {
    AlignedHasRoom(Realign(rows, now), moving, beforeId);
  }

  /** Where the moved row goes: its new key, the table that key was
      computed on, and whether that table had to be realigned first. */
  datatype Placement = Placement(rows: Table, key: int, realigned: bool)

  /** The move handler's `run`: one attempt on the table as it is and, if it
      finds no room, realignment and exactly one more attempt. The second
      attempt always finds room, so the "Unable to sort after align" error
      cannot happen. */
  function Place(rows: Table, moving: int, beforeId: Option<int>, now: int): (r: Result<Placement>)
    ensures r.Ok?
    ensures !r.value.realigned <==> TryPlace(rows, moving, beforeId).Some?
    ensures !r.value.realigned ==> r.value.rows == rows
    ensures r.value.realigned ==> r.value.rows == Realign(rows, now)
    ensures var p := r.value; LowerBound(p.rows, beforeId) < p.key < UpperBound(p.rows, LowerBound(p.rows, beforeId), moving)
    ensures var p := r.value; forall i :: 0 <= i < |p.rows| && p.rows[i].id != moving ==>
      p.rows[i].sort <= LowerBound(p.rows, beforeId) || p.rows[i].sort > p.key
    ensures var p := r.value; forall i :: 0 <= i < |p.rows| && p.rows[i].id != moving ==> p.rows[i].sort != p.key
  {
    match TryPlace(rows, moving, beforeId)
    case Some(k) => Ok(Placement(rows, k, false))
    case None =>
      var aligned := Realign(rows, now);
      RealignedHasRoom(rows, now, moving, beforeId);
      match TryPlace(aligned, moving, beforeId)
      case Some(k) => Ok(Placement(aligned, k, true))
      case None => Fail(Internal(UnableToSort))
  }
}

=== FILE: aswritten.dfy ===
/** Two handlers as their code is written, next to the corrected versions
    the rest of the model uses, with the inputs on which they differ.

    - `allow_unlock` writes `dt.locking_switch_requested_by` into
      `locked_by`; `dt` is the current time (a number), the property is
      undefined, the driver stores NULL, and the row ends up unlocked
      instead of held by the requester.
    - `alignSort` reads `tasks[i].sort` on the query result object instead
      of `tasks.rows[i].sort`; `tasks[0]` is undefined, so on any non-empty
      table the read throws and the move answers 500 instead of realigning.
 */
module AsWritten {
  import opened Results
  import opened Tasks
  import opened Locks
  import opened Allocator
  import KeyOrder

  /** The message of the TypeError thrown by `tasks[i].sort`. */
  const AlignTypeError: string := "Cannot read properties of undefined (reading 'sort')"

  /** `allow_unlock` as written: the holder is set to NULL (no token). */
  function AllowAsWritten(t: Task, caller: Token, now: int): (r: Result<Task>)
    ensures r.Ok? <==> MayEdit(t, caller)
    ensures r.Ok? ==> !Held(r.value) && r.value.requestedBy == NoToken
  {
    match Gate(t, caller)
    case Fail(e) => Fail(e)
    case Ok(_) =>
      Ok(t.(lockedBy := NoToken, lockedAt := now, requestedBy := NoToken, requestedAt := 0, updatedAt := now))
  }

  /** The holder allows a pending request: as written the requester does not
      get the lock and the request is gone, while the corrected handler
      hands the lock to the requester. */
  lemma AllowAsWrittenDropsRequester(t: Task, holder: Token, requester: Token, now: int)
    requires Active(t) && t.lockedBy == holder && holder != NoToken
    requires t.requestedBy == requester && requester != NoToken
    ensures AllowAsWritten(t, holder, now).Ok? && AllowTransfer(t, holder, now).Ok?
    ensures AllowAsWritten(t, holder, now).value.lockedBy != requester
    ensures AllowTransfer(t, holder, now).value.lockedBy == requester
  {
  }

  /** `alignSort` as written: it throws on the first row. */
  function AlignAsWritten(rows: Table, now: int): (r: Result<Table>)
    ensures r.Ok? <==> |rows| == 0
    ensures r.Ok? ==> r.value == Realign(rows, now)
  {
    if |rows| == 0 then Ok(rows) else Fail(Internal(AlignTypeError))
  }

  /** The move handler's `run` with `alignSort` as written. */
  function PlaceAsWritten(rows: Table, moving: int, beforeId: Option<int>, now: int): (r: Result<Placement>)
    ensures TryPlace(rows, moving, beforeId).Some? ==> r == Place(rows, moving, beforeId, now)
    ensures TryPlace(rows, moving, beforeId).None? && |rows| > 0 ==> r == Fail(Internal(AlignTypeError))
  {
    match TryPlace(rows, moving, beforeId)
    case Some(k) => Ok(Placement(rows, k, false))
    case None =>
      match AlignAsWritten(rows, now)
      case Fail(e) => Fail(e)
      case Ok(aligned) =>
        match TryPlace(aligned, moving, beforeId)
        case Some(k) => Ok(Placement(aligned, k, true))
        case None => Fail(Internal(UnableToSort))
  }

  /** Three rows keyed 1000, 1001 and 3000. */
  function Crowded(): Table {
    [NewTask(1, "a", 0, 0), NewTask(2, "b", 0, 0).(sort := 1001), NewTask(3, "c", 0, 0)]
  }

  lemma CrowdedHasNoRoom()
    ensures TryPlace(Crowded(), 3, Some(1)).None?
  {
    var rows := Crowded();
    assert Find(rows, 1) == Some(0);
    assert LowerBound(rows, Some(1)) == 1000;
    assert Successor(rows[2..], 1000, 3) == None;
    assert Successor(rows[1..], 1000, 3) == Some(1001);
    assert Successor(rows, 1000, 3) == Some(1001);
  }

  lemma CrowdedIsSorted()
    ensures KeyOrder.SortByKey(Crowded()) == Crowded()
  {
    var rows := Crowded();
    assert KeyOrder.SortByKey(rows[2..]) == rows[2..];
    assert KeyOrder.SortByKey(rows[1..]) == rows[1..];
  }

  /** After realignment the crowded rows keep their order and are keyed
      1000, 2000 and 3000. */
  lemma CrowdedRealigned()
    ensures var r := Realign(Crowded(), 7);
      && |r| == 3
      && r[0].id == 1 && r[1].id == 2 && r[2].id == 3
      && r[0].sort == 1000 && r[1].sort == 2000 && r[2].sort == 3000
  {
    var s := Crowded();
    CrowdedIsSorted();
    var r := Realign(s, 7);
    assert r[0].id == s[0].id && r[1].id == s[1].id && r[2].id == s[2].id;
  }

  /** Rows 1, 2 and 3 keyed 1000, 2000 and 3000 leave room for row 3
      behind row 1, at 1500. */
  lemma ThreeAlignedHaveRoom(a: Table)
    requires |a| == 3
    requires a[0].id == 1 && a[1].id == 2 && a[2].id == 3
    requires a[0].sort == 1000 && a[1].sort == 2000 && a[2].sort == 3000
    ensures TryPlace(a, 3, Some(1)) == Some(1500)
  {
    assert Find(a, 1) == Some(0);
    assert LowerBound(a, Some(1)) == 1000;
    assert Successor(a[2..], 1000, 3) == None;
    assert Successor(a[1..], 1000, 3) == Some(2000);
  }

  lemma CrowdedRealignedHasRoom()
    ensures TryPlace(Realign(Crowded(), 7), 3, Some(1)) == Some(1500)
  {
    CrowdedRealigned();
    ThreeAlignedHaveRoom(Realign(Crowded(), 7));
  }

  /** Moving the third of three rows keyed 1000, 1001 and 3000 behind the
      first leaves no integer between 1000 and 1001. As written the move
      fails with a 500; the corrected handler realigns to 1000, 2000, 3000
      and puts the row at 1500. */
  lemma CrowdedMoveCounterexample()
    ensures PlaceAsWritten(Crowded(), 3, Some(1), 7) == Fail(Internal(AlignTypeError))
    ensures Place(Crowded(), 3, Some(1), 7).value.realigned
    ensures Place(Crowded(), 3, Some(1), 7).value.key == 1500
  {
    CrowdedHasNoRoom();
    CrowdedRealignedHasRoom();
  }
}

=== FILE: board.dfy ===
/** The handlers over the whole `tasks` table.

    A handler looks its row up by id, runs the row-level transition and
    writes the row back; the move handler also runs the key allocator over
    the whole table. A failed handler leaves the table as it was.

    The table invariant `WellKeyed(table, top)`, where `top` is the highest
    id the id sequence has issued so far: ids are unique and in `1..top`,
    and the keys are pairwise distinct and lie in `1 .. (top + 1) * 1000 - 1`.
    Creation, every row-level handler and the move handler all keep it, so
    the keys, tombstones included, always form a strict total order.
 */
module Board {
  import opened Results
  import opened Tasks
  import opened Locks
  import opened Allocator

  predicate DistinctKeys(table: Table) {
    forall i, j :: 0 <= i < j < |table| ==> table[i].sort != table[j].sort
  }

  predicate WellKeyed(table: Table, top: int) {
    && UniqueIds(table)
    && DistinctKeys(table)
    && (forall i :: 0 <= i < |table| ==> 1 <= table[i].id <= top)
    && (forall i :: 0 <= i < |table| ==> 0 < table[i].sort < (top + 1) * Spacing)
  }

  /** `POST /tasks`: append a row with the id the sequence issued and the key
      `id * 1000`. The two writes of the handler (insert, then set the key)
      are one step here. */
  function Create(table: Table, newId: int, text: string, col: int, now: int): (r: Result<Table>)
    ensures r.Fail? <==> text == ""
    ensures r.Fail? ==> r.err == Invalid(TextRequired)
    ensures r.Ok? ==> |r.value| == |table| + 1 && r.value[..|table|] == table
    ensures r.Ok? ==> var t := r.value[|table|];
      && t.id == newId && t.sort == newId * Spacing && t.text == text && t.col == col
      && Active(t) && !Held(t) && t.requestedBy == NoToken && t.createdAt == now && t.updatedAt == now
  {
    if text == "" then Fail(Invalid(TextRequired))
    else Ok(table + [NewTask(newId, text, col, now)])
  }

  /** A row-level handler on the row with the given id. A missing or deleted
      row is a NotFound, except for unlock, which answers without error and
      writes nothing; update checks its text before looking. */
  function Perform(table: Table, id: int, s: Step): (r: Result<Table>)
    ensures r.Ok? ==> |r.value| == |table|
    ensures r.Ok? ==> forall j :: 0 <= j < |table| && table[j].id != id ==> r.value[j] == table[j]
    ensures r.Ok? ==> forall j :: 0 <= j < |table| ==> r.value[j].id == table[j].id && r.value[j].sort == table[j].sort
    ensures Find(table, id).None? ==> (r.Ok? <==> s.op == Unlock) && (r.Ok? ==> r.value == table)
    ensures Find(table, id).None? && r.Fail? ==> r.err == NotFound || r.err == Invalid(TextRequired)
    ensures Find(table, id).None? && s.op != Unlock && !(s.op.Update? && s.op.text == "") ==> r == Fail(NotFound)
    ensures Find(table, id).Some? ==> (r.Ok? <==> Apply(table[Find(table, id).value], s).Ok?)
    ensures Find(table, id).Some? && r.Ok? ==>
      r.value == table[Find(table, id).value := Apply(table[Find(table, id).value], s).value]
    ensures Find(table, id).Some? && r.Fail? ==> r.err == Apply(table[Find(table, id).value], s).err
  {
    match Find(table, id)
    case None =>
      if s.op == Unlock then Ok(table)
      else if s.op.Update? && s.op.text == "" then Fail(Invalid(TextRequired))
      else Fail(NotFound)
    case Some(i) =>
      NextKeepsKey(table[i], s);
      match Apply(table[i], s)
      case Fail(e) => Fail(e)
      case Ok(u) => Ok(table[i := u])
  }

  /** The moved row's final write: the new key and column on the row with
      this id; every other row as it was. */
  function SetKey(rows: Table, id: int, key: int, col: int, now: int): (r: Table)
    ensures |r| == |rows|
    ensures forall j :: 0 <= j < |rows| && rows[j].id != id ==> r[j] == rows[j]
    ensures forall j :: 0 <= j < |rows| && rows[j].id == id ==> r[j].sort == key && r[j].col == col && r[j].updatedAt == now
    ensures forall j :: 0 <= j < |rows| && rows[j].id == id ==>
      r[j].text == rows[j].text && r[j].createdAt == rows[j].createdAt && r[j].deletedAt == rows[j].deletedAt
    ensures forall j :: 0 <= j < |rows| ==> r[j].id == rows[j].id && SameHolder(r[j], rows[j]) && SamePending(r[j], rows[j])
  {
    seq(|rows|, j requires 0 <= j < |rows| =>
      if rows[j].id == id then rows[j].(sort := key, col := col, updatedAt := now) else rows[j])
  }

  /** `PATCH /tasks/:id/move`: the gate, then the allocator, then the write
      of the new key and column. Only the gate can refuse. */
  function Move(table: Table, id: int, caller: Token, beforeId: Option<int>, col: int, now: int): (r: Result<Table>)
    ensures r.Ok? <==> Find(table, id).Some? && MayEdit(table[Find(table, id).value], caller)
    ensures r.Fail? ==> r.err == NotFound || r.err == Conflict(EditedBySomeoneElse)
    ensures Find(table, id).None? ==> r == Fail(NotFound)
    ensures Find(table, id).Some? && r.Fail? ==> r.err == Gate(table[Find(table, id).value], caller).err
    ensures r.Ok? ==> |r.value| == |table|
  {
    match Find(table, id)
    case None => Fail(NotFound)
    case Some(i) =>
      match Gate(table[i], caller)
      case Fail(e) => Fail(e)
      case Ok(_) =>
        match Place(table, id, beforeId, now)
        case Fail(e) => Fail(e)
        case Ok(p) => Ok(SetKey(p.rows, id, p.key, col, now))
  }

  /** A move that succeeds writes the key the allocator chose on the table
      the allocator returned. */
  lemma MoveWrites(table: Table, id: int, caller: Token, beforeId: Option<int>, col: int, now: int)
    requires Move(table, id, caller, beforeId, col, now).Ok?
    ensures var p := Place(table, id, beforeId, now).value;
      Move(table, id, caller, beforeId, col, now).value == SetKey(p.rows, id, p.key, col, now)
  {
  }

  /** Distinct ids drawn from `1..m` number at most `m`. */
  lemma {:induction false} IdsBound(s: Table, m: int)
    requires m >= 0
    requires UniqueIds(s)
    requires forall i :: 0 <= i < |s| ==> 1 <= s[i].id <= m
    ensures |s| <= m
    decreases m
  {
    if |s| > 0 {
      assert 1 <= s[0].id <= m;
      if exists p :: 0 <= p < |s| && s[p].id == m {
        var p :| 0 <= p < |s| && s[p].id == m;
        var rest := s[..p] + s[p + 1..];
        assert forall i :: 0 <= i < |rest| ==> rest[i] == s[if i < p then i else i + 1];
        IdsBound(rest, m - 1);
      } else {
        IdsBound(s, m - 1);
      }
    }
  }

  /** The multiple of 1000 just above a bound is at most the next one. */
  lemma CeilingBelow(low: int, top: int)
    requires low < (top + 1) * Spacing
    ensures Ceiling(low) <= (top + 1) * Spacing
  {
    var c := Ceiling(low);
    var q := c / Spacing;
    assert c == q * Spacing;
    assert q * Spacing < (top + 2) * Spacing;
  }

  /** Creating a row with an id above every id issued so far keeps the
      table well keyed, with the new id as the highest issued. */
  lemma CreateKeepsWellKeyed(table: Table, top: int, newId: int, text: string, col: int, now: int)
    requires WellKeyed(table, top) && top >= 0
    requires newId > top
    requires Create(table, newId, text, col, now).Ok?
    ensures WellKeyed(Create(table, newId, text, col, now).value, newId)
    ensures forall i :: 0 <= i < |table| ==> table[i].sort < newId * Spacing
  {
    var r := Create(table, newId, text, col, now).value;
    assert forall i :: 0 <= i < |table| ==> r[i] == table[i];
    assert (top + 1) * Spacing <= newId * Spacing;
  }

  /** Row-level handlers never touch ids or keys. */
  lemma PerformKeepsWellKeyed(table: Table, top: int, id: int, s: Step)
    requires WellKeyed(table, top)
    requires Perform(table, id, s).Ok?
    ensures WellKeyed(Perform(table, id, s).value, top)
  {
  }

  /** Realignment keeps the table well keyed: the ids are the same, and
      there are no more rows than ids issued, so the largest new key
      `|table| * 1000` stays below the bound. */
  lemma {:induction false} RealignKeepsWellKeyed(table: Table, top: int, now: int)
    requires WellKeyed(table, top)
    ensures WellKeyed(Realign(table, now), top)
  {
    var r := Realign(table, now);
    RealignKeepsIdsUnique(table, now);
    forall i | 0 <= i < |r|
      ensures 1 <= r[i].id <= top
    {
      RealignAddsNoRows(table, now, i);
    }
    if |table| > 0 {
      IdsBound(table, top);
    }
    forall i | 0 <= i < |r|
      ensures 0 < r[i].sort < (top + 1) * Spacing
    {
      assert r[i].sort == (i + 1) * Spacing;
      assert i + 1 <= top;
    }
  }

  /** Writing a key the allocator chose keeps the table well keyed. */
  lemma {:induction false} SetKeyKeepsWellKeyed(rows: Table, top: int, id: int, beforeId: Option<int>, key: int, col: int, now: int)
    requires WellKeyed(rows, top)
    requires exists j :: 0 <= j < |rows| && rows[j].id == id
    requires LowerBound(rows, beforeId) < key < UpperBound(rows, LowerBound(rows, beforeId), id)
    requires forall j :: 0 <= j < |rows| && rows[j].id != id ==> rows[j].sort != key
    ensures WellKeyed(SetKey(rows, id, key, col, now), top)
  {
    var low := LowerBound(rows, beforeId);
    var high := UpperBound(rows, low, id);
    var r := SetKey(rows, id, key, col, now);
    assert top >= 1;
    assert 0 <= low < (top + 1) * Spacing;
    if high == Ceiling(low) {
      CeilingBelow(low, top);
    }
    assert high <= (top + 1) * Spacing;
  }

  /** The move handler keeps the table well keyed. */
  lemma {:induction false} MoveKeepsWellKeyed(table: Table, top: int, id: int, caller: Token, beforeId: Option<int>, col: int, now: int)
    requires WellKeyed(table, top)
    requires Move(table, id, caller, beforeId, col, now).Ok?
    ensures WellKeyed(Move(table, id, caller, beforeId, col, now).value, top)
  {
    var i := Find(table, id).value;
    var p := Place(table, id, beforeId, now).value;
    if p.realigned {
      RealignKeepsWellKeyed(table, top, now);
      RealignKeepsRows(table, now, i);
    }
    assert exists j :: 0 <= j < |p.rows| && p.rows[j].id == id;
    SetKeyKeepsWellKeyed(p.rows, top, id, beforeId, p.key, col, now);
  }

  /** In `r` the row with id `id` comes right after the row with id `b`:
      keyed above it, with no other row's key in between. */
  predicate LandsAfter(r: Table, b: int, id: int) {
    forall a, c :: 0 <= a < |r| && 0 <= c < |r| && r[a].id == b && r[c].id == id ==>
      && r[a].sort < r[c].sort
      && forall j :: 0 <= j < |r| && j != c ==> r[j].sort <= r[a].sort || r[j].sort > r[c].sort
  }

  /** In `r` the row with id `id` comes first: every other key is above its own. */
  predicate First(r: Table, id: int) {
    forall c, j :: 0 <= c < |r| && 0 <= j < |r| && r[c].id == id && j != c ==> r[j].sort > r[c].sort
  }

  /** Writing a key allocated behind predecessor `b` puts the row with id
      `id` right after the row with id `b`. */
  lemma {:induction false} SetKeyLandsAfter(rows: Table, id: int, b: int, key: int, col: int, now: int)
    requires UniqueIds(rows) && b != id
    requires LowerBound(rows, Some(b)) < key
    requires forall i :: 0 <= i < |rows| && rows[i].id != id ==> rows[i].sort <= LowerBound(rows, Some(b)) || rows[i].sort > key
    ensures LandsAfter(SetKey(rows, id, key, col, now), b, id)
  {
    var r := SetKey(rows, id, key, col, now);
    forall a, c | 0 <= a < |r| && 0 <= c < |r| && r[a].id == b && r[c].id == id
      ensures r[a].sort < r[c].sort
      ensures forall j :: 0 <= j < |r| && j != c ==> r[j].sort <= r[a].sort || r[j].sort > r[c].sort
    {
      assert r[a] == rows[a];
      assert LowerBound(rows, Some(b)) == r[a].sort;
      forall j | 0 <= j < |r| && j != c
        ensures r[j].sort <= r[a].sort || r[j].sort > r[c].sort
      {
        assert rows[j].id != id;
        assert r[j] == rows[j];
      }
    }
  }

  /** Every key is positive. */
  predicate PositiveKeys(rows: Table) {
    forall i :: 0 <= i < |rows| ==> rows[i].sort > 0
  }

  /** The table the allocator returns keeps unique ids and positive keys. */
  lemma PlacedRows(table: Table, id: int, beforeId: Option<int>, now: int)
    requires UniqueIds(table) && PositiveKeys(table)
    ensures UniqueIds(Place(table, id, beforeId, now).value.rows)
    ensures PositiveKeys(Place(table, id, beforeId, now).value.rows)
  {
    if Place(table, id, beforeId, now).value.realigned {
      RealignKeepsIdsUnique(table, now);
    }
  }

  /** A move behind an existing predecessor puts the moved row right after
      it: above the predecessor's key, with no other row's key in between. */
  lemma {:induction false} MoveLandsAfterPredecessor(table: Table, top: int, id: int, caller: Token, b: int, col: int, now: int)
    requires WellKeyed(table, top)
    requires b != id
    requires Move(table, id, caller, Some(b), col, now).Ok?
    ensures LandsAfter(Move(table, id, caller, Some(b), col, now).value, b, id)
  {
    var p := Place(table, id, Some(b), now).value;
    MoveWrites(table, id, caller, Some(b), col, now);
    PlacedRows(table, id, Some(b), now);
    SetKeyLandsAfter(p.rows, id, b, p.key, col, now);
  }

  /** Writing a key below every other positive key puts the row first. */
  lemma {:induction false} SetKeyToFront(rows: Table, id: int, key: int, col: int, now: int)
    requires UniqueIds(rows) && PositiveKeys(rows)
    requires forall i :: 0 <= i < |rows| && rows[i].id != id ==> rows[i].sort <= 0 || rows[i].sort > key
    ensures First(SetKey(rows, id, key, col, now), id)
  {
    var r := SetKey(rows, id, key, col, now);
    forall c, j | 0 <= c < |r| && 0 <= j < |r| && r[c].id == id && j != c
      ensures r[j].sort > r[c].sort
    {
      assert rows[j].id != id;
      assert r[j] == rows[j];
    }
  }

  /** A move with no predecessor puts the moved row first: every other
      row's key is above the new one. */
  lemma {:induction false} MoveToFront(table: Table, top: int, id: int, caller: Token, col: int, now: int)
    requires WellKeyed(table, top)
    requires Move(table, id, caller, None, col, now).Ok?
    ensures First(Move(table, id, caller, None, col, now).value, id)
  {
    var p := Place(table, id, None, now).value;
    MoveWrites(table, id, caller, None, col, now);
    PlacedRows(table, id, None, now);
    assert LowerBound(p.rows, None) == 0;
    SetKeyToFront(p.rows, id, p.key, col, now);
  }
}

=== FILE: keyorder.dfy ===
/** Rows in ascending key order, the order `ORDER BY sort` returns them in.
    Rows with equal keys may come in either order; this insertion sort keeps
    them in table order. */
module KeyOrder {
  import opened Tasks

  predicate SortedByKey(s: seq<Task>) {
    forall i, j :: 0 <= i < j < |s| ==> s[i].sort <= s[j].sort
  }

  /** Put `x` into its place in a sorted sequence. */
  function Insert(x: Task, s: seq<Task>): (r: seq<Task>)
    requires SortedByKey(s)
    ensures |r| == |s| + 1
    ensures multiset(r) == multiset(s) + multiset{x}
    ensures SortedByKey(r)
    ensures r[0] == x || (|s| > 0 && r[0] == s[0])
    decreases |s|
  {
    if |s| == 0 then [x]
    else if x.sort <= s[0].sort then [x] + s
    else
      var rest := Insert(x, s[1..]);
      assert s == [s[0]] + s[1..];
      assert s[0].sort <= rest[0].sort;
      [s[0]] + rest
  }

  /** The rows of `s` in ascending key order: a sorted permutation. */
  function SortByKey(s: seq<Task>): (r: seq<Task>)
    ensures |r| == |s|
    ensures SortedByKey(r)
    ensures multiset(r) == multiset(s)
    decreases |s|
  {
    if |s| == 0 then []
    else
      assert s == [s[0]] + s[1..];
      Insert(s[0], SortByKey(s[1..]))
  }

  /** A row put in front of rows with other ids keeps the ids unique. */
  lemma ConsKeepsIdsUnique(h: Task, rest: seq<Task>)
    requires UniqueIds(rest)
    requires forall k :: 0 <= k < |rest| ==> rest[k].id != h.id
    ensures UniqueIds([h] + rest)
  {
  }

  /** Every row of an insertion result is the inserted row or an old one. */
  lemma InsertMembers(x: Task, s: seq<Task>, k: int)
    requires SortedByKey(s) && 0 <= k <= |s|
    ensures Insert(x, s)[k] == x || Insert(x, s)[k] in s
  {
    assert Insert(x, s)[k] in multiset(Insert(x, s));
  }

  /** Inserting a row whose id is new keeps the ids unique. */
  lemma {:induction false} InsertKeepsIdsUnique(x: Task, s: seq<Task>)
    requires SortedByKey(s) && UniqueIds(s)
    requires forall k :: 0 <= k < |s| ==> s[k].id != x.id
    ensures UniqueIds(Insert(x, s))
    decreases |s|
  {
    if |s| == 0 {
    } else if x.sort <= s[0].sort {
      ConsKeepsIdsUnique(x, s);
    } else {
      var tail := s[1..];
      InsertKeepsIdsUnique(x, tail);
      var rest := Insert(x, tail);
      forall k | 0 <= k < |rest|
        ensures rest[k].id != s[0].id
      {
        InsertMembers(x, tail, k);
        if rest[k] != x {
          var m :| 0 <= m < |tail| && tail[m] == rest[k];
          assert s[m + 1] == rest[k];
        }
      }
      ConsKeepsIdsUnique(s[0], rest);
    }
  }

  /** Sorting keeps the ids unique. */
  lemma {:induction false} SortKeepsIdsUnique(s: seq<Task>)
    requires UniqueIds(s)
    ensures UniqueIds(SortByKey(s))
    decreases |s|
  {
    if |s| > 0 {
      var tail := s[1..];
      SortKeepsIdsUnique(tail);
      var rest := SortByKey(tail);
      forall k | 0 <= k < |rest|
        ensures rest[k].id != s[0].id
      {
        assert rest[k] in multiset(tail);
        var m :| 0 <= m < |tail| && tail[m] == rest[k];
        assert s[m + 1] == rest[k];
      }
      InsertKeepsIdsUnique(s[0], rest);
    }
  }
}

=== FILE: listing.dfy ===
/** The task list of `GET /tasks`: the active rows changed after the
    caller's watermark, in key order, each with the caller's flags and with
    both tokens stripped. */
module Listing {
  import opened Tasks
  import opened Locks
  import opened KeyOrder

  /** One entry of the list. */
  datatype Item = Item(row: Task, flags: Flags)

  /** The rows the list query selects: active and updated after `since`. */
  function Visible(table: Table, since: int): (r: Table)
    ensures forall t :: t in r <==> t in table && Active(t) && t.updatedAt > since
    ensures |r| <= |table|
    decreases |table|
  {
    if |table| == 0 then []
    else
      var rest := Visible(table[1..], since);
      assert table == [table[0]] + table[1..];
      if Active(table[0]) && table[0].updatedAt > since then [table[0]] + rest else rest
  }

  /** The selection keeps each selected row exactly as often as the table
      has it, and no other row: every row appears once per copy. */
  lemma {:induction false} VisibleCounts(table: Table, since: int)
    ensures forall t :: multiset(Visible(table, since))[t] == (if Active(t) && t.updatedAt > since then multiset(table)[t] else 0)
    decreases |table|
  {
    if |table| > 0 {
      VisibleCounts(table[1..], since);
      assert table == [table[0]] + table[1..];
    }
  }

  /** The token the listing answers for: the caller's header when it is
      non-empty, otherwise a newly generated one, which is never empty. */
  function SessionToken(header: Token, generated: Token): (token: Token)
    requires generated != NoToken
    ensures token != NoToken
    ensures header != NoToken ==> token == header
    ensures header == NoToken ==> token == generated
  {
    if header != NoToken then header else generated
  }

  /** The list the caller holding `token` receives; the token is the
      `SessionToken` of the request, so it is never empty. */
  function List(table: Table, since: int, token: Token): (r: seq<Item>)
    requires token != NoToken
    ensures |r| == |Visible(table, since)|
    ensures forall i, j :: 0 <= i < j < |r| ==> r[i].row.sort <= r[j].row.sort
    ensures forall i :: 0 <= i < |r| ==> r[i].row.lockedBy == NoToken && r[i].row.requestedBy == NoToken
  {
    var rows := SortByKey(Visible(table, since));
    seq(|rows|, i requires 0 <= i < |rows| => Item(Strip(rows[i]), FlagsFor(rows[i], token)))
  }

  /** Every active row of the table changed after the watermark is listed,
      stripped and flagged for the caller. */
  lemma {:induction false} ListIsComplete(table: Table, since: int, token: Token, p: int)
    requires token != NoToken
    requires 0 <= p < |table|
    requires Active(table[p]) && table[p].updatedAt > since
    ensures exists i :: 0 <= i < |List(table, since, token)| && List(table, since, token)[i] == Item(Strip(table[p]), FlagsFor(table[p], token))
  {
    var rows := SortByKey(Visible(table, since));
    assert table[p] in Visible(table, since);
    assert table[p] in multiset(rows);
    var i :| 0 <= i < |rows| && rows[i] == table[p];
    assert List(table, since, token)[i] == Item(Strip(table[p]), FlagsFor(table[p], token));
  }

  /** A listed row comes from an active row changed after the watermark,
      and its `locked` flag is set exactly when the gate refuses the caller. */
  lemma {:induction false} ListIsSound(table: Table, since: int, token: Token, i: int)
    requires token != NoToken
    requires 0 <= i < |List(table, since, token)|
    ensures exists p ::
      (&& 0 <= p < |table| && Active(table[p]) && table[p].updatedAt > since
       && List(table, since, token)[i] == Item(Strip(table[p]), FlagsFor(table[p], token))
       && (List(table, since, token)[i].flags.locked <==> Gate(table[p], token).Fail?))
  {
    var rows := SortByKey(Visible(table, since));
    assert rows[i] in multiset(Visible(table, since));
    assert rows[i] in Visible(table, since);
    var p :| 0 <= p < |table| && table[p] == rows[i];
    FlagsAgreeWithGate(table[p], token);
  }

  /** A row nobody holds or asked for carries no flag for a real caller. */
  lemma FreeRowFlagsNothing(t: Task, token: Token)
    requires token != NoToken
    requires !Held(t) && t.requestedBy == NoToken
    ensures FlagsFor(t, token) == Flags(false, false, false, false)
  {
  }

  /** A soft-deleted row is never listed. */
  lemma {:induction false} TombstonesNotListed(table: Table, since: int, token: Token, i: int)
    requires token != NoToken
    requires 0 <= i < |List(table, since, token)|
    ensures Active(List(table, since, token)[i].row)
  {
    ListIsSound(table, since, token, i);
  }
}

=== FILE: locks.dfy ===
/** The edit-lock state machine of one task row.

    Each handler of the lock protocol reads the row (only if it is not
    deleted), checks a guard and writes a few fields. Here each one is a pure
    transition from the row it read, the caller's token and the current time
    to either the row it writes or the error it answers with. Every write also
    stamps `updatedAt` with the current time, the watermark clients pull by.
 */
module Locks {
  import opened Results
  import opened Tasks

  /** The caller may edit the row: it is active, and unlocked or held by
      the caller. */
  predicate MayEdit(t: Task, caller: Token) {
    Active(t) && (t.lockedBy == NoToken || t.lockedBy == caller)
  }

  /** The editability gate run before every edit (index.js:36-45). */
  function Gate(t: Task, caller: Token): (r: Result<Task>)
    ensures r.Ok? <==> MayEdit(t, caller)
    ensures r.Ok? ==> r.value == t
    ensures r == Fail(NotFound) <==> !Active(t)
    ensures r.Fail? && Active(t) ==> r.err == Conflict(EditedBySomeoneElse)
  {
    if !Active(t) then Fail(NotFound)
    else if t.lockedBy != NoToken && t.lockedBy != caller then Fail(Conflict(EditedBySomeoneElse))
    else Ok(t)
  }

  /** `PATCH /tasks/:id/lock`: take (or re-take) the lock. */
  function Acquire(t: Task, caller: Token, now: int): (r: Result<Task>)
    ensures r.Ok? <==> MayEdit(t, caller)
    ensures r.Fail? ==> r.err == Gate(t, caller).err
    ensures r.Ok? ==> r.value.lockedBy == caller && r.value.lockedAt == now
    ensures r.Ok? ==> SameContent(r.value, t) && SamePending(r.value, t) && r.value.updatedAt == now
  {
    match Gate(t, caller)
    case Fail(e) => Fail(e)
    case Ok(_) => Ok(t.(lockedBy := caller, lockedAt := now, updatedAt := now))
  }

  /** `PATCH /tasks/:id/unlock`: the holder lets go. Anybody else, or a
      deleted row, leaves the row as it was; it never answers an error. The
      pending transfer request, if any, stays in place. */
  function Release(t: Task, caller: Token, now: int): (u: Task)
    ensures u != t ==> Active(t) && t.lockedBy == caller
    ensures Active(t) && t.lockedBy == caller ==> u.lockedBy == NoToken && u.lockedAt == 0 && u.updatedAt == now
    ensures SameContent(u, t) && SamePending(u, t)
  {
    if Active(t) && t.lockedBy == caller then
      t.(lockedBy := NoToken, lockedAt := 0, updatedAt := now)
    else
      t
  }

  /** `PATCH /tasks/:id/send_unlock_request`: ask the holder for the lock. */
  function RequestTransfer(t: Task, caller: Token, now: int): (r: Result<Task>)
    ensures !Active(t) ==> r == Fail(NotFound)
    ensures Active(t) && (!Held(t) || t.lockedBy == caller) ==> r == Fail(Conflict(NotLocked))
    ensures Active(t) && Held(t) && t.lockedBy != caller && t.requestedBy == caller ==> r == Fail(Conflict(AlreadyAsked))
    ensures r.Ok? <==> Active(t) && Held(t) && t.lockedBy != caller && t.requestedBy != caller
    ensures r.Ok? ==> r.value.requestedBy == caller && r.value.requestedAt == now
    ensures r.Ok? ==> SameContent(r.value, t) && SameHolder(r.value, t) && r.value.updatedAt == now
  {
    if !Active(t) then Fail(NotFound)
    else if t.lockedBy == NoToken || t.lockedBy == caller then Fail(Conflict(NotLocked))
    else if t.requestedBy == caller then Fail(Conflict(AlreadyAsked))
    else Ok(t.(requestedBy := caller, requestedAt := now, updatedAt := now))
  }

  /** `PATCH /tasks/:id/cancel_unlock_request`: withdraw one's own request.
      Anybody but the recorded requester leaves the row as it was. */
  function CancelTransfer(t: Task, caller: Token, now: int): (r: Result<Task>)
    ensures r.Fail? <==> !Active(t)
    ensures r.Fail? ==> r.err == NotFound
    ensures r.Ok? && t.requestedBy != caller ==> r.value == t
    ensures r.Ok? && t.requestedBy == caller ==> r.value.requestedBy == NoToken && r.value.requestedAt == 0 && r.value.updatedAt == now
    ensures r.Ok? ==> SameContent(r.value, t) && SameHolder(r.value, t)
  {
    if !Active(t) then Fail(NotFound)
    else if t.requestedBy == caller then Ok(t.(requestedBy := NoToken, requestedAt := 0, updatedAt := now))
    else Ok(t)
  }

  /** `PATCH /tasks/:id/try_unlock`: the requester takes the lock once the
      cooldown has passed (strictly more than 5000 ms after the request). */
  function ClaimTransfer(t: Task, caller: Token, now: int): (r: Result<Task>)
    ensures !Active(t) ==> r == Fail(NotFound)
    ensures Active(t) && t.requestedBy != caller ==> r == Fail(Conflict(SomeoneElseAsked))
    ensures Active(t) && t.requestedBy == caller && now <= t.requestedAt + Cooldown ==> r == Fail(Conflict(MustWait))
    ensures r.Ok? <==> Active(t) && t.requestedBy == caller && now > t.requestedAt + Cooldown
    ensures r.Ok? ==> r.value.lockedBy == caller && r.value.lockedAt == now
    ensures r.Ok? ==> r.value.requestedBy == NoToken && r.value.requestedAt == 0
    ensures r.Ok? ==> SameContent(r.value, t) && r.value.updatedAt == now
  {
    if !Active(t) then Fail(NotFound)
    else if t.requestedBy != caller then Fail(Conflict(SomeoneElseAsked))
    else if now > t.requestedAt + Cooldown then
      Ok(t.(requestedBy := NoToken, requestedAt := 0, lockedBy := caller, lockedAt := now, updatedAt := now))
    else Fail(Conflict(MustWait))
  }

  /** `PATCH /tasks/:id/deny_unlock`: the holder turns the request down. */
  function DenyTransfer(t: Task, caller: Token, now: int): (r: Result<Task>)
    ensures r.Ok? <==> MayEdit(t, caller)
    ensures r.Fail? ==> r.err == Gate(t, caller).err
    ensures r.Ok? ==> r.value.requestedBy == NoToken && r.value.requestedAt == 0
    ensures r.Ok? ==> SameContent(r.value, t) && SameHolder(r.value, t) && r.value.updatedAt == now
  {
    match Gate(t, caller)
    case Fail(e) => Fail(e)
    case Ok(_) => Ok(t.(requestedBy := NoToken, requestedAt := 0, updatedAt := now))
  }

  /** `PATCH /tasks/:id/allow_unlock`: the holder hands the lock to the
      row's own pending requester. */
  function AllowTransfer(t: Task, caller: Token, now: int): (r: Result<Task>)
    ensures r.Ok? <==> MayEdit(t, caller)
    ensures r.Fail? ==> r.err == Gate(t, caller).err
    ensures r.Ok? ==> r.value.lockedBy == t.requestedBy && r.value.lockedAt == now
    ensures r.Ok? ==> r.value.requestedBy == NoToken && r.value.requestedAt == 0
    ensures r.Ok? ==> SameContent(r.value, t) && r.value.updatedAt == now
  {
    match Gate(t, caller)
    case Fail(e) => Fail(e)
    case Ok(_) =>
      Ok(t.(lockedBy := t.requestedBy, lockedAt := now, requestedBy := NoToken, requestedAt := 0, updatedAt := now))
  }

  /** `PATCH /tasks/:id`: replace the text. An empty text is refused before
      the row is even read. */
  function EditText(t: Task, caller: Token, text: string, now: int): (r: Result<Task>)
    ensures text == "" ==> r == Fail(Invalid(TextRequired))
    ensures r.Ok? <==> text != "" && MayEdit(t, caller)
    ensures r.Fail? && text != "" ==> r.err == Gate(t, caller).err
    ensures r.Ok? ==> r.value.text == text && r.value.updatedAt == now
    ensures r.Ok? ==> r.value.id == t.id && r.value.sort == t.sort && r.value.deletedAt == t.deletedAt
    ensures r.Ok? ==> r.value.col == t.col && r.value.createdAt == t.createdAt
    ensures r.Ok? ==> SameHolder(r.value, t) && SamePending(r.value, t)
  {
    if text == "" then Fail(Invalid(TextRequired))
    else match Gate(t, caller)
      case Fail(e) => Fail(e)
      case Ok(_) => Ok(t.(text := text, updatedAt := now))
  }

  /** `DELETE /tasks/:id`: turn the row into a tombstone stamped `now`. */
  function SoftDelete(t: Task, caller: Token, now: int): (r: Result<Task>)
    ensures r.Ok? <==> MayEdit(t, caller)
    ensures r.Fail? ==> r.err == Gate(t, caller).err
    ensures r.Ok? ==> r.value.deletedAt == now && r.value.updatedAt == now
    ensures r.Ok? ==> r.value.id == t.id && r.value.sort == t.sort && r.value.text == t.text
    ensures r.Ok? ==> r.value.col == t.col && r.value.createdAt == t.createdAt
    ensures r.Ok? ==> SameHolder(r.value, t) && SamePending(r.value, t)
  {
    match Gate(t, caller)
    case Fail(e) => Fail(e)
    case Ok(_) => Ok(t.(deletedAt := now, updatedAt := now))
  }

  /** The row-level handlers, named after their endpoints. */
  datatype Op =
    | Lock
    | Unlock
    | SendUnlockRequest
    | CancelUnlockRequest
    | TryUnlock
    | DenyUnlock
    | AllowUnlock
    | Update(text: string)
    | Delete

  /** One request: which handler, whose token, and the server's clock. */
  datatype Step = Step(op: Op, caller: Token, now: int)

  /** Run one request against the row it reads. */
  function Apply(t: Task, s: Step): Result<Task> {
    match s.op
    case Lock => Acquire(t, s.caller, s.now)
    case Unlock => Ok(Release(t, s.caller, s.now))
    case SendUnlockRequest => RequestTransfer(t, s.caller, s.now)
    case CancelUnlockRequest => CancelTransfer(t, s.caller, s.now)
    case TryUnlock => ClaimTransfer(t, s.caller, s.now)
    case DenyUnlock => DenyTransfer(t, s.caller, s.now)
    case AllowUnlock => AllowTransfer(t, s.caller, s.now)
    case Update(text) => EditText(t, s.caller, text, s.now)
    case Delete => SoftDelete(t, s.caller, s.now)
  }

  /** The row after the request: the committed row, or the row as it was
      when the handler answered with an error. */
  function Next(t: Task, s: Step): Task {
    match Apply(t, s)
    case Ok(u) => u
    case Fail(_) => t
  }

  /** No request moves a row or changes its identity. */
  lemma NextKeepsKey(t: Task, s: Step)
    ensures Next(t, s).id == t.id && Next(t, s).sort == t.sort
  {
  }

  /** Every change to a row carries the request's time as its watermark, so
      a client pulling rows updated after an earlier watermark sees it. */
  lemma ChangeCarriesWatermark(t: Task, s: Step)
    ensures Next(t, s) != t ==> Next(t, s).updatedAt == s.now
  {
  }

  /** Lock exclusivity: while a token holds the row, another caller's request
      can take the lock away from it only by claiming a transfer it asked for,
      after the cooldown. Every other request by another caller either fails
      or leaves the holder in place. */
  lemma OnlyClaimTakesHeldLock(t: Task, s: Step)
    requires Held(t) && s.caller != t.lockedBy
    requires Next(t, s).lockedBy != t.lockedBy
    ensures s.op == TryUnlock
    ensures s.caller == t.requestedBy && s.now > t.requestedAt + Cooldown
    ensures Next(t, s).lockedBy == s.caller
  {
  }

  /** Any edit by a caller other than the current holder is refused with the
      gate's Conflict. */
  lemma NonHolderEditConflicts(t: Task, s: Step)
    requires Active(t) && Held(t) && s.caller != t.lockedBy
    requires s.op == Lock || s.op == DenyUnlock || s.op == AllowUnlock || s.op == Delete
             || (s.op.Update? && s.op.text != "")
    ensures Apply(t, s) == Fail(Conflict(EditedBySomeoneElse))
  {
  }

  /** Who can become holder: after any request the holder is the old holder,
      nobody, the caller of a successful lock, or the token that was pending
      (through a claim or an allow). */
  lemma HolderChange(t: Task, s: Step)
    ensures var u := Next(t, s);
      || u.lockedBy == t.lockedBy
      || u.lockedBy == NoToken
      || (s.op == Lock && Apply(t, s).Ok? && u.lockedBy == s.caller)
      || u.lockedBy == t.requestedBy
  {
  }

  /** How the pending request can change: it stays exactly as it was, it is
      cleared, or a successful transfer request records the caller and the
      request's time. */
  lemma PendingChange(t: Task, s: Step)
    ensures var u := Next(t, s);
      || SamePending(u, t)
      || u.requestedBy == NoToken
      || (s.op == SendUnlockRequest && Apply(t, s).Ok? && u.requestedBy == s.caller && u.requestedAt == s.now)
  {
  }

  /** Re-locking by the holder succeeds and keeps the holder. */
  lemma LockIdempotent(t: Task, caller: Token, now1: int, now2: int)
    requires Acquire(t, caller, now1).Ok?
    ensures Acquire(Acquire(t, caller, now1).value, caller, now2).Ok?
    ensures Acquire(Acquire(t, caller, now1).value, caller, now2).value.lockedBy == caller
  {
  }

  /** A transfer request replaces another token's pending request, and the
      replaced requester's claim is then refused. */
  lemma RequestReplacesOther(t: Task, other: Token, caller: Token, now: int, later: int)
    requires Active(t) && Held(t) && t.lockedBy != caller
    requires t.requestedBy == other && other != caller
    ensures RequestTransfer(t, caller, now).Ok?
    ensures ClaimTransfer(RequestTransfer(t, caller, now).value, other, later) == Fail(Conflict(SomeoneElseAsked))
  {
  }

  /** Releasing does not withdraw a pending request: the requester can still
      claim the now-unlocked row once the cooldown has passed. */
  lemma ReleaseKeepsRequest(t: Task, requester: Token, now: int, later: int)
    requires Active(t) && Held(t) && t.requestedBy == requester && requester != t.lockedBy
    requires later > t.requestedAt + Cooldown
    ensures !Held(Release(t, t.lockedBy, now))
    ensures Release(t, t.lockedBy, now).requestedBy == requester
    ensures ClaimTransfer(Release(t, t.lockedBy, now), requester, later).Ok?
  {
  }

  /** A denied requester's later claim is refused. */
  lemma DenyThenClaimFails(t: Task, holder: Token, requester: Token, now: int, later: int)
    requires Active(t) && t.lockedBy == holder && requester != NoToken
    ensures DenyTransfer(t, holder, now).Ok?
    ensures ClaimTransfer(DenyTransfer(t, holder, now).value, requester, later) == Fail(Conflict(SomeoneElseAsked))
    ensures DenyTransfer(t, holder, now).value.lockedBy == holder
  {
  }

  /** With the holder's permission the pending requester gets the lock at
      once, without waiting for the cooldown. */
  lemma AllowGrantsRequester(t: Task, holder: Token, requester: Token, now: int)
    requires Active(t) && t.lockedBy == holder && t.requestedBy == requester
    ensures AllowTransfer(t, holder, now).Ok?
    ensures AllowTransfer(t, holder, now).value.lockedBy == requester
    ensures MayEdit(AllowTransfer(t, holder, now).value, requester)
    ensures requester != NoToken && requester != holder ==> !MayEdit(AllowTransfer(t, holder, now).value, holder)
  {
  }

  /** The listing's `locked` flag is exactly the gate's refusal, for an active row. */
  lemma FlagsAgreeWithGate(t: Task, token: Token)
    requires Active(t)
    ensures !FlagsFor(t, token).locked <==> Gate(t, token).Ok?
    ensures FlagsFor(t, token).editPermission ==> Gate(t, token).Ok?
  {
  }
}

=== FILE: results.dfy ===
/** Failure-carrying values shared by the whole model.

    Every handler of the task server either commits a change or answers with
    an error status; `Result` is the pure counterpart of that choice, and
    `Err` is its error taxonomy (404, 400 and 500 answers).
 */
module Results {

  /** A value that may be absent (a lookup that found no row, a body field
      that was not sent). */
  datatype Option<+T> = None | Some(value: T)

  /** The error answers a handler can give. */
  datatype Err =
    | NotFound                  // 404 "Task Not Found"
    | Conflict(message: string) // 400: lock, permission or timing violation
    | Invalid(message: string)  // 400: a required body field is missing
    | Internal(message: string) // 500: store failure or key-space exhaustion

  /** The outcome of one handler: the new state, or the error it answers with. */
  datatype Result<+T> = Ok(value: T) | Fail(err: Err)
}

=== FILE: scenarios.dfy ===
/** Concrete runs of the handlers, and two edge cases of the lock protocol
    that the code decides in a way a reader might not expect. */
module Scenarios {
  import opened Results
  import opened Tasks
  import opened Locks
  import opened Allocator
  import opened Board

  const T1: Token := "t1"
  const T2: Token := "t2"

  /** The board after creating "Write spec" (id 1) and "Review" (id 2). */
  function TwoTasks(): Table {
    [NewTask(1, "Write spec", 0, 100), NewTask(2, "Review", 0, 200)]
  }

  /** Creation keys the rows `id * 1000`; moving "Review" behind "Write
      spec" finds no successor, takes the synthetic bound 2000 and lands at
      the midpoint 1500. */
  lemma ScenarioPlacement()
    ensures Create([], 1, "Write spec", 0, 100) == Ok([NewTask(1, "Write spec", 0, 100)])
    ensures Create([NewTask(1, "Write spec", 0, 100)], 2, "Review", 0, 200) == Ok(TwoTasks())
    ensures TwoTasks()[0].sort == 1000 && TwoTasks()[1].sort == 2000
    ensures Move(TwoTasks(), 2, T1, Some(1), 0, 300).Ok?
    ensures Move(TwoTasks(), 2, T1, Some(1), 0, 300).value[1].sort == 1500
  {
    var rows := TwoTasks();
    assert [NewTask(1, "Write spec", 0, 100)] + [NewTask(2, "Review", 0, 200)] == rows;
    assert Find(rows, 2) == Some(1);
    assert Find(rows, 1) == Some(0);
    assert LowerBound(rows, Some(1)) == 1000;
    assert Successor(rows[1..], 1000, 2) == None;
    assert Successor(rows, 1000, 2) == None;
    assert Ceiling(1000) == 2000 by {
      CeilingOfMultiple(1);
    }
    assert TryPlace(rows, 2, Some(1)) == Some(1500);
  }

  /** T1 locks; T2's lock is refused; T2 asks for the lock; T2's immediate
      claim must wait; a claim more than 5000 ms after the request hands the
      row to T2 and clears the request. */
  lemma ScenarioTransfer()
    ensures var t0 := NewTask(1, "Write spec", 0, 0);
      && Acquire(t0, T1, 10).Ok?
      && var t1 := Acquire(t0, T1, 10).value;
      && Acquire(t1, T2, 20) == Fail(Conflict(EditedBySomeoneElse))
      && RequestTransfer(t1, T2, 30).Ok?
      && var t2 := RequestTransfer(t1, T2, 30).value;
      && t2.requestedBy == T2 && t2.lockedBy == T1
      && ClaimTransfer(t2, T2, 40) == Fail(Conflict(MustWait))
      && ClaimTransfer(t2, T2, 5031).Ok?
      && ClaimTransfer(t2, T2, 5031).value.lockedBy == T2
      && ClaimTransfer(t2, T2, 5031).value.requestedBy == NoToken
  {
  }

  /** T1 holds, T2 asks, T1 denies: T1 still holds, and T2's claim is
      refused as if someone else had asked. */
  lemma ScenarioDenial()
    ensures var t0 := Acquire(NewTask(1, "Write spec", 0, 0), T1, 10).value;
      && RequestTransfer(t0, T2, 20).Ok?
      && var t1 := RequestTransfer(t0, T2, 20).value;
      && DenyTransfer(t1, T1, 30).Ok?
      && var t2 := DenyTransfer(t1, T1, 30).value;
      && t2.lockedBy == T1 && t2.requestedBy == NoToken
      && ClaimTransfer(t2, T2, 10000) == Fail(Conflict(SomeoneElseAsked))
  {
  }

  /** The cooldown comparison is strict: a claim exactly 5000 ms after the
      request is still told to wait. */
  lemma ClaimAtCooldownWaits(t: Task, requester: Token)
    requires Active(t) && t.requestedBy == requester
    ensures ClaimTransfer(t, requester, t.requestedAt + Cooldown) == Fail(Conflict(MustWait))
    ensures ClaimTransfer(t, requester, t.requestedAt + Cooldown + 1).Ok?
  {
  }

  /** Deny, like cancel, claim and allow, clears the requester by writing
      the empty string. A caller whose token header is sent empty then
      matches that requester at the claim's check and, once 5000 ms after
      time 0 have passed, takes the lock as the empty token: the row ends up
      unlocked, taken from whoever held it. */
  lemma EmptyTokenClaimUnlocks(t: Task, holder: Token, now: int, later: int)
    requires Active(t) && t.lockedBy == holder && holder != NoToken
    requires later > Cooldown
    ensures DenyTransfer(t, holder, now).Ok?
    ensures DenyTransfer(t, holder, now).value.lockedBy == holder
    ensures ClaimTransfer(DenyTransfer(t, holder, now).value, NoToken, later).Ok?
    ensures !Held(ClaimTransfer(DenyTransfer(t, holder, now).value, NoToken, later).value)
  {
  }
}

=== FILE: tasks.dfy ===
/** The task row, the constants of the protocol, and the per-caller flags
    the listing attaches to each row. */
module Tasks {
  import opened Results

  /** An opaque client token, compared by equality only. */
  type Token = string

  /** The empty token: an unlocked row, or no pending transfer request. */
  const NoToken: Token := ""

  /** Spacing of the sort keys given at creation and by realignment. */
  const Spacing: int := 1000

  /** How long a transfer requester must wait before claiming, in ms. */
  const Cooldown: int := 5000

  // Error messages of the handlers.
  const EditedBySomeoneElse: string := "The task is currently edited by someone else"
  const NotLocked: string := "The task is not locked"
  const AlreadyAsked: string := "You have already asked for the edit permission"
  const MustWait: string := "You have to wait for 5 seconds before getting the edit permission"
  const SomeoneElseAsked: string := "Someone else also asked for the edit permission, your request was cancelled"
  const TextRequired: string := "Text field must be filled"
  const UnableToSort: string := "Unable to sort after align"

  /** One row of the `tasks` table. Timestamps are milliseconds; a zero
      `deletedAt` marks an active row, any other value a tombstone. */
  datatype Task = Task(
    id: int,
    text: string,
    col: int,
    sort: int,
    createdAt: int,
    updatedAt: int,
    deletedAt: int,
    lockedBy: Token,
    lockedAt: int,
    requestedBy: Token,
    requestedAt: int)

  /** The whole table as a full scan returns it; the order carries no meaning. */
  type Table = seq<Task>

  predicate Active(t: Task) {
    t.deletedAt == 0
  }

  predicate Held(t: Task) {
    t.lockedBy != NoToken
  }

  /** The lock fields are untouched. */
  predicate SameHolder(a: Task, b: Task) {
    a.lockedBy == b.lockedBy && a.lockedAt == b.lockedAt
  }

  /** The pending-transfer fields are untouched. */
  predicate SamePending(a: Task, b: Task) {
    a.requestedBy == b.requestedBy && a.requestedAt == b.requestedAt
  }

  /** Identity, content, placement and lifecycle are untouched. */
  predicate SameContent(a: Task, b: Task) {
    && a.id == b.id && a.text == b.text && a.col == b.col && a.sort == b.sort
    && a.createdAt == b.createdAt && a.deletedAt == b.deletedAt
  }

  /** The row `POST /tasks` leaves behind: inserted with its text and column,
      then given the key `id * 1000`; no lock, no request, not deleted. */
  function NewTask(id: int, text: string, col: int, now: int): (t: Task)
    ensures t.id == id && t.text == text && t.col == col
    ensures t.sort == id * Spacing
    ensures Active(t) && !Held(t) && t.requestedBy == NoToken
    ensures t.createdAt == now && t.updatedAt == now
  {
    Task(id, text, col, id * Spacing, now, now, 0, NoToken, 0, NoToken, 0)
  }

  /** First index of the table holding the row with this id. */
  function Find(table: Table, id: int): (r: Option<nat>)
    ensures r.Some? ==> r.value < |table| && table[r.value].id == id
    ensures r.Some? ==> forall j :: 0 <= j < r.value ==> table[j].id != id
    ensures r.None? <==> forall j :: 0 <= j < |table| ==> table[j].id != id
  {
    if |table| == 0 then None
    else if table[0].id == id then Some(0)
    else match Find(table[1..], id)
      case None => None
      case Some(k) => Some(k + 1)
  }

  /** No two rows share an id (the primary key). */
  predicate UniqueIds(table: Table) {
    forall i, j :: 0 <= i < j < |table| ==> table[i].id != table[j].id
  }

  /** The four per-caller flags the listing adds to each row. */
  datatype Flags = Flags(
    locked: bool,
    lockingRequested: bool,
    editPermission: bool,
    editPermissionRequestedBySomeoneElse: bool)

  /** The flags `GET /tasks` shows the caller holding `token`. They tell the
      caller whether someone else holds the row, whether the caller holds it,
      and whether the caller is, or someone else is, asking for it. */
  function FlagsFor(t: Task, token: Token): (f: Flags)
    ensures f.editPermission <==> t.lockedBy == token
    ensures f.locked <==> Held(t) && !f.editPermission
    ensures f.lockingRequested <==> t.requestedBy == token
    ensures f.editPermissionRequestedBySomeoneElse <==> f.editPermission && t.requestedBy != NoToken
  {
    Flags(
      locked := t.lockedBy != NoToken && t.lockedBy != token,
      lockingRequested := t.requestedBy == token,
      editPermission := t.lockedBy == token,
      editPermissionRequestedBySomeoneElse := t.lockedBy == token && t.requestedBy != NoToken)
  }

  /** The row as the listing shows it: both tokens are stripped. */
  function Strip(t: Task): (s: Task)
    ensures s.lockedBy == NoToken && s.requestedBy == NoToken
    ensures SameContent(s, t) && s.lockedAt == t.lockedAt && s.requestedAt == t.requestedAt
    ensures s.updatedAt == t.updatedAt
  {
    t.(lockedBy := NoToken, requestedBy := NoToken)
  }
}

=== FILE: traces.dfy ===
/** Invariants of the lock protocol over arbitrary sequences of requests
    against one row.

    The two theorems: a token only ever holds a row it asked for (by locking
    it or by requesting a transfer), and a transfer is claimed only after a
    transfer request by the same token whose time is more than the cooldown
    before the claim.
 */
module Traces {
  import opened Tasks
  import opened Locks

  /** The states a row passes through: `states[k]` is the row before
      `steps[k]`, and the last state is the row after all of them. */
  function Trace(t: Task, steps: seq<Step>): (states: seq<Task>)
    ensures |states| == |steps| + 1
    ensures states[0] == t
    ensures forall k :: 0 <= k < |steps| ==> states[k + 1] == Next(states[k], steps[k])
    decreases |steps|
  {
    if |steps| == 0 then [t]
    else
      var prefix := Trace(t, steps[..|steps| - 1]);
      prefix + [Next(prefix[|steps| - 1], steps[|steps| - 1])]
  }

  /** The row as created: nobody holds it and nobody asked for it. */
  predicate Pristine(t: Task) {
    t.lockedBy == NoToken && t.requestedBy == NoToken
  }

  /** `steps[j]` is a successful transfer request by `who` at time `when`. */
  predicate RequestedBy(states: seq<Task>, steps: seq<Step>, j: int, who: Token, when: int)
    requires |states| == |steps| + 1
  {
    && 0 <= j < |steps|
    && steps[j].op == SendUnlockRequest
    && steps[j].caller == who
    && steps[j].now == when
    && Apply(states[j], steps[j]).Ok?
  }

  /** `steps[j]` is a successful lock or transfer request by `who`. */
  predicate AskedBy(states: seq<Task>, steps: seq<Step>, j: int, who: Token)
    requires |states| == |steps| + 1
  {
    && 0 <= j < |steps|
    && (steps[j].op == Lock || steps[j].op == SendUnlockRequest)
    && steps[j].caller == who
    && Apply(states[j], steps[j]).Ok?
  }

  /** Before step `k`, the pending request, if any, was recorded by an
      earlier successful transfer request of that token at that time, and the
      holder, if any, asked earlier. */
  predicate Witnessed(states: seq<Task>, steps: seq<Step>, k: int)
    requires |states| == |steps| + 1
    requires 0 <= k < |states|
  {
    && (states[k].requestedBy != NoToken ==>
          exists j :: 0 <= j < k && RequestedBy(states, steps, j, states[k].requestedBy, states[k].requestedAt))
    && (states[k].lockedBy != NoToken ==>
          exists j :: 0 <= j < k && AskedBy(states, steps, j, states[k].lockedBy))
  }

  lemma {:induction false} WitnessedStep(states: seq<Task>, steps: seq<Step>, k: int)
    requires |states| == |steps| + 1
    requires 0 <= k < |steps|
    requires states[k + 1] == Next(states[k], steps[k])
    requires Witnessed(states, steps, k)
    ensures Witnessed(states, steps, k + 1)
  {
    var t, s, u := states[k], steps[k], states[k + 1];
    PendingChange(t, s);
    HolderChange(t, s);
    if u.requestedBy != NoToken {
      if SamePending(u, t) {
        var j :| 0 <= j < k && RequestedBy(states, steps, j, t.requestedBy, t.requestedAt);
        assert RequestedBy(states, steps, j, u.requestedBy, u.requestedAt);
      } else {
        assert RequestedBy(states, steps, k, u.requestedBy, u.requestedAt);
      }
    }
    if u.lockedBy != NoToken {
      if u.lockedBy == t.lockedBy {
        var j :| 0 <= j < k && AskedBy(states, steps, j, t.lockedBy);
        assert AskedBy(states, steps, j, u.lockedBy);
      } else if s.op == Lock && Apply(t, s).Ok? && u.lockedBy == s.caller {
        assert AskedBy(states, steps, k, u.lockedBy);
      } else {
        assert u.lockedBy == t.requestedBy;
        var j :| 0 <= j < k && RequestedBy(states, steps, j, t.requestedBy, t.requestedAt);
        assert AskedBy(states, steps, j, u.lockedBy);
      }
    }
  }

  /** Starting from a pristine row, every state of every trace is witnessed. */
  lemma {:induction false} AlwaysWitnessed(t: Task, steps: seq<Step>, k: int)
    requires Pristine(t)
    requires 0 <= k <= |steps|
    ensures Witnessed(Trace(t, steps), steps, k)
    decreases k
  {
    var states := Trace(t, steps);
    if k > 0 {
      AlwaysWitnessed(t, steps, k - 1);
      WitnessedStep(states, steps, k - 1);
    }
  }

  /** Only a token that asked can hold the row: if anybody holds it after
      some prefix of requests, that token earlier locked it or requested a
      transfer, successfully. */
  lemma {:induction false} HoldersAsked(t: Task, steps: seq<Step>, k: int)
    requires Pristine(t)
    requires 0 <= k <= |steps|
    requires Held(Trace(t, steps)[k])
    ensures exists j :: 0 <= j < k && AskedBy(Trace(t, steps), steps, j, Trace(t, steps)[k].lockedBy)
  {
    AlwaysWitnessed(t, steps, k);
  }

  /** The cooldown is respected: a successful claim at step `k` follows a
      successful transfer request by the same token at an earlier step whose
      time is more than 5000 ms before the claim. */
  lemma {:induction false} ClaimRespectsCooldown(t: Task, steps: seq<Step>, k: int)
    requires Pristine(t)
    requires 0 <= k < |steps|
    requires steps[k].op == TryUnlock && steps[k].caller != NoToken
    requires Apply(Trace(t, steps)[k], steps[k]).Ok?
    ensures exists j :: 0 <= j < k && RequestedBy(Trace(t, steps), steps, j, steps[k].caller, Trace(t, steps)[k].requestedAt)
    ensures steps[k].now > Trace(t, steps)[k].requestedAt + Cooldown
  {
    AlwaysWitnessed(t, steps, k);
  }
}
